=== FILE: README.md ===
# Voice recorder with composite-wave analysis — verified model

This project models the core of a small PyQt utility. The utility records two
microphone takes into WAV files. It then plots them as waveforms and/or
spectra, together with their composite (the per-sample mean of the takes). The
core is the `VoiceRecorder` class in `record.py`, which has two halves.

- **Recording.** A start/stop state machine over the fields
  `currently_recording`, `filename`, `frames` and `stream`. A background loop
  appends one chunk of raw PCM bytes per read while the flag is up.
  `save_recording` writes the chunks, joined in capture order, under a header
  taken from the fixed configuration (channels, sample width, rate).
- **Analysis.** `plot_recordings` goes through the requested files in order.
  It skips a file that is missing or raises while being processed, and
  decodes the data bytes into signed 16-bit samples. It picks a palette
  colour and alpha from the file's position and draws one trace per view the
  mode asks for. When more than one signal got through, it adds the
  composite: every signal cut to the shortest length, then averaged.

Files:

- `wrappers.dfy`: `Option`.
- `arith.dfy`: three facts about multiplication and division by a positive
  number, used for the frame counts of saved takes.
- `pcm.dfy`: byte chunks, `b"".join`, and the 16-bit little-endian two's-complement
  decoding (numpy `frombuffer(..., int16)`), with its inverse.
- `wav.dfy`: a WAV file as header fields plus data bytes, what the `wave`
  module's reader accepts and returns, and `FileStore`, the directory of files.
- `lifecycle.dfy`: the recorder's state as a value and each operation as a
  transition. These functions are the specification of the class, and the
  lemmas about whole sessions are stated over them.
- `recorder.dfy`: the `VoiceRecorder` class. Its fields are the source's
  fields, and each method is proved to change them exactly as the matching
  transition says and to write exactly the file `SaveOutput` describes.
- `analysis.dfy`: modes and subplots, palette, spectrum bin count, the composite
  as an exact mean, and what one file contributes (`ProcessFile`).
- `plot.dfy`: the loop over the files (`PlotRecordings`), the composite step,
  and the lemmas about the batch.

Behaviour of `record.py` that the model keeps and that is easy to miss:

- Every call of `stop_recording` saves while a filename is set, even on an
  idle recorder whose take was already saved. Once a take has been stopped, the recorder still holds that take's stream, already closed.
  Stopping a second take before its capture thread has opened a new stream
  reaches `stop_stream()` and `close()` on that closed stream. In PyAudio
  both do nothing on a stream that is not running, so the stop lowers the
  flag and saves the new take empty. The thread then opens its stream, finds
  the flag down, and saves the same empty take again
  (`Lifecycle.StopBeforeReopen`).
- On a recorder that was never started, `stop_recording` writes nothing,
  because `filename` is still empty.
- Per-file failures in `plot_recordings` are whatever raises inside the `try`,
  not only missing or malformed files. Data of odd length raises in
  `np.frombuffer`. A zero frame rate raises at the time axis. A frame count
  that differs from the sample count (a stereo or 8-bit file, for example)
  raises in the waveform plot. An empty file raises in the FFT. In "Both"
  mode the waveform of an empty file is already drawn when the FFT raises, so
  that trace stays, but the file adds no signal (`ProcessFile`).
- `readframes(-1)` returns the whole data chunk, a trailing partial frame
  included, while `getnframes()` counts whole frames only.
- One missing and one present file give exactly one trace in the single-view
  modes. In "Both" the present file gives two traces, one per subplot.
- `sample_freq` is the rate of the last header read, even when that file was
  then skipped. The composite time axis divides by it. So the whole call
  raises exactly when more than one signal got through and the last file opened had a
  zero rate (`PlotResult.Crashed`, `Plot.CrashNeedsZeroRate`).
- The drawn spectrum bins `[:n // 2]` all have non-negative frequency. For odd
  n they leave out the one positive bin `n // 2`
  (`Analysis.SpectrumKeepsNonNegativeBins`).

## Model

| member | source | states |
|---|---|---|
| Pcm.Concat | record.py:79 | the join of the chunks has exactly as many bytes as the chunks together |
| Pcm.ConcatAppend | record.py:51 | appending a chunk to the buffer appends its bytes to what save writes |
| Pcm.ConcatAt | record.py:79 | byte k of chunk i lands right after every byte of the chunks before it, so the join keeps capture order and loses nothing |
| Pcm.DecodeSample | record.py:103 | a byte pair gives a value in [-32768, 32767] congruent to lo + 256*hi modulo 65536, which is little-endian two's complement |
| Pcm.EncodeSample | record.py:103 | every 16-bit value has a byte pair that decodes to it |
| Pcm.EncodeDecodeSample | record.py:103 | the byte pair of a decoded sample is the original pair |
| Pcm.DecodeSamples | record.py:103 | decoding succeeds exactly on even-length data, gives one sample per byte pair, and sample k is the value of bytes 2k and 2k+1 |
| Pcm.EncodeSamples | record.py:103 | encoding stores two bytes per sample |
| Pcm.DecodeEncode | record.py:103 | decoding the bytes of any 16-bit samples returns those samples |
| Pcm.EncodeDecode | record.py:103 | any even-length data is the encoding of its decoded samples |
| Pcm.DecodeAppend | record.py:103 | decoding two even-length pieces joined is decoding each piece, one after the other |
| Pcm.DecodeChunks | record.py:79 | the chunk-by-chunk samples number half the bytes of the chunks |
| Pcm.DecodeConcat | record.py:79 | the samples of the saved data are each chunk's samples, in capture order |
| Wav.SampleSize | record.py:77 | every PyAudio format has 1 to 4 bytes per sample, and 16-bit has 2 |
| Wav.OpenWav | record.py:99 | a file opens only if it parses with at least one channel and a non-zero sample width, and then it is that file |
| Wav.NFrames | record.py:101 | the frame count is the number of whole frames in the data: they fit in it, and one more would not |
| Wav.ReadSignal | record.py:102-103 | reading all frames returns the whole data chunk, a trailing partial frame included, so the samples read from a file exist exactly when its data has even length; there is one per byte pair, sample k being the 16-bit value of bytes 2k and 2k+1 |
| Wav.Write | record.py:75-80 | a save that writes nothing leaves the directory as it was; otherwise the path now holds the new file, replacing what it held, and every other path is unchanged |
| Lifecycle.AfterStart | record.py:31-33 | starting names the take, empties the buffer and raises the flag, and leaves the stream handle as it was |
| Lifecycle.AfterOpen | record.py:40-46 | the capture thread's stream is open, and nothing else changes |
| Lifecycle.AfterCapture | record.py:49-51 | one test of the loop keeps the buffer as a prefix and adds exactly one chunk, the one read, at the end if and only if the flag is up; nothing else changes |
| Lifecycle.AfterStop | record.py:58-61 | stopping lowers the flag, keeps the name and the buffer, closes an open stream, and leaves no stream open |
| Lifecycle.AfterToggle | record.py:24-28 | toggling a recording recorder stops it and keeps its take; toggling an idle one starts a take under the new name with an empty buffer; only a stop closes the stream |
| Lifecycle.AfterCaptures | record.py:49-51 | a run of the loop keeps the flag, the name and the stream, keeps the buffer as a prefix, and adds at most one chunk per read |
| Lifecycle.TakeFile | record.py:75-79 | the saved file carries the configured channels, sample size and rate over the joined chunks, and the reader opens it again exactly when it has at least one channel |
| Lifecycle.SaveOutput | record.py:72-80 | save writes nothing exactly when no filename is set; otherwise it writes under the filename the header from the configuration and the join of the frames |
| Lifecycle.CaptureAppendsInOrder | record.py:49-51 | while the flag is up, the loop appends each chunk read, in read order, and changes nothing else |
| Lifecycle.NoCaptureAfterStop | record.py:49-53 | once the flag is down, further reads change nothing |
| Lifecycle.SessionWritesItsChunks | record.py:30-64 | start, open, reads, stop: whatever the buffer held before, the stop saves exactly this session's chunks joined under the configured header; reads after the stop change nothing, so the thread's save writes the same file |
| Lifecycle.NeverStartedWritesNothing | record.py:57-74 | a recorder that was never started (whose filename is still the empty one set at record.py:20) keeps an empty buffer, and a stop writes no file |
| Lifecycle.ToggleTwiceSaves | record.py:24-28 | two toggles from idle, with the thread's stream opened in between, record one take, close the stream, and save exactly the chunks read in between |
| Lifecycle.StopBeforeReopen | record.py:30-64 | a second take stopped while the first take's closed stream is still held: the stop leaves that stream closed and saves the take empty, and the thread, opening its stream afterwards, reads nothing and saves the same empty take |
| Lifecycle.SavedTakeFrames | record.py:50-80 | with full reads, the saved file holds frames_per_buffer frames per read, and the reader opens it again as written |
| Lifecycle.SavedTakeSamples | record.py:75-80 | a mono 16-bit take reads back as each chunk's samples in capture order, frames_per_buffer samples per read |
| Recorder.VoiceRecorder.constructor | record.py:11-20 | a new recorder keeps the given configuration, is idle, has an empty buffer, no filename and no stream |
| Recorder.VoiceRecorder.Toggle | record.py:24-28 | toggling stops (and saves) when recording and starts otherwise, and writes nothing when starting |
| Recorder.VoiceRecorder.Start | record.py:30-33 | starting sets the filename, empties the buffer and raises the flag |
| Recorder.VoiceRecorder.OpenStream | record.py:40-46 | the capture thread's stream is open |
| Recorder.VoiceRecorder.CaptureStep | record.py:49-51 | one loop turn appends the chunk if and only if the flag is up, and reports whether it did |
| Recorder.VoiceRecorder.FinishCapture | record.py:53 | after the loop ends, the take is saved as SaveOutput says |
| Recorder.VoiceRecorder.Stop | record.py:57-64 | stopping lowers the flag, closes an open stream, leaves a closed one closed, and saves as SaveOutput says |
| Recorder.VoiceRecorder.Save | record.py:72-80 | save changes only the named file, to the configured header over the joined frames, and leaves the directory unchanged when no filename is set |
| Recorder.RecordSession | record.py:24-64 | one take driven by the two button presses and the capture thread ends with exactly the chunks read, joined, saved under the default header; in the model the thread's second save rewrites the same file |
| Recorder.StopWithoutStart | record.py:57-74 | stopping a fresh recorder leaves the directory unchanged |
| Analysis.ShowsWaveform | record.py:109-110 | waveforms are drawn exactly for the modes in ["Oscilloscope", "Both"] |
| Analysis.ShowsSpectrum | record.py:111-114 | spectra are drawn exactly for the modes in ["Spectrum Analyzer", "Both"] |
| Analysis.SubplotCount | record.py:84 | the figure has one or two subplots, two exactly in "Both" |
| Analysis.SpectrumAxis | record.py:114 | spectra go to a subplot that exists: the second in "Both", the only one otherwise |
| Analysis.SubplotLayout | record.py:84-86 | there are two subplots exactly in "Both", the only mode that draws both views; waveforms and spectra then go to different subplots, and every view goes to a subplot that exists |
| Analysis.ColorIndex | record.py:106 | the colour position is a valid index of the six-colour palette |
| Analysis.AlphaIndex | record.py:107 | the alpha position is a valid index of the three alpha values |
| Analysis.PaletteOrder | record.py:106-107 | colours repeat every six files and differ within six; alpha never increases along the file list and strictly decreases over the first three files |
| Analysis.SpectrumBins | record.py:114 | the drawn bins are half the transform, rounded down |
| Analysis.FreqNumerator | record.py:112 | every bin's frequency numerator lies in [-n/2, n/2) and equals the bin number modulo n |
| Analysis.SpectrumKeepsNonNegativeBins | record.py:112-114 | the n // 2 drawn bins are the first half and all have non-negative frequency; every dropped bin is negative except, for odd n, bin n // 2 |
| Analysis.MinLength | record.py:122 | the minimum length is at most every signal's length and equal to some signal's length |
| Analysis.Composite | record.py:123 | the composite is as long as the shortest signal, and each element times the number of signals is the sum of that sample over all signals |
| Analysis.CompositeOfIdentical | record.py:121-123 | the composite of copies of one signal is that signal |
| Analysis.CompositeInRange | record.py:123 | the composite of 16-bit signals stays within the 16-bit range, so the mean cannot overflow |
| Analysis.CompositeOfTwo | record.py:121-123 | two signals give a composite as long as the shorter one, each element the average of the two samples |
| Analysis.Opens | record.py:95-99 | a file opens exactly when it exists, parses, and has at least one channel and a non-zero sample width |
| Analysis.LoadedSignal | record.py:95-116 | a file gets through exactly when it exists, opens, has a non-zero rate and even-length data, has as many frames as samples when waveforms are drawn, and is not empty when spectra are drawn; its signal is then the decoded data, half as many samples as bytes |
| Analysis.ProcessFile | record.py:93-119 | a file adds exactly its loadable signal; a missing file adds nothing; the rate is recorded exactly when the file opened; a surviving file adds one trace per drawn view, in its palette colour and alpha; a failing file keeps at most the empty waveform drawn in "Both"; no file draws more than two traces |
| Plot.AddOutcome | record.py:93-119 | one more file keeps the signals and traces collected so far as prefixes, adds at most one signal, and never unsets sample_freq |
| Plot.BatchOf | record.py:93-119 | after n files there are at most n signals and 2n traces, all solid and on subplots that exist |
| Plot.CompositeTraces | record.py:126-136 | one composite trace per view the mode draws, each dashed, labelled "Composite Signal", with alpha 0.8, on a subplot that exists; the waveform one first, on the waveform subplot with one point per sample, the spectrum one last, on the spectrum subplot with the drawn bins |
| Plot.PlotOutcome | record.py:83-136 | a shown figure has the mode's subplots, the loop's signals, exactly the loop's traces followed by the composite's traces when there is a composite, and a composite exactly when more than one signal got through; a crash needs more than one signal |
| Plot.PlotRecordings | record.py:83-136 | the loop over the files followed by the composite step gives exactly the outcome PlotOutcome describes |
| Plot.SignalsAppend | record.py:116 | a file at the end of the request adds its signal, if any, at the end |
| Plot.BatchSignals | record.py:93-119 | the loop collects exactly the reference signals of the files it has passed, in file order |
| Plot.SignalsConcat | record.py:93-119 | the signals of two lists of files are those of the first list, then those of the second |
| Plot.SkipsMissingFile | record.py:95-97 | a missing file is skipped without stopping the batch, and the signals are those of the request without it |
| Plot.SignalsFromFiles | record.py:116 | there is at most one signal per file, and every signal is the signal of some requested file |
| Plot.PlotShowsSignals | record.py:121-123 | a shown figure has the mode's subplots and the reference signals, and a composite exactly when more than one signal got through, equal to their mean |
| Plot.SampleFreqStep | record.py:99-100 | one more file sets sample_freq to its rate exactly when it opens, and leaves it otherwise |
| Plot.SampleFreqUnset | record.py:91-100 | sample_freq is unset exactly while no file has opened |
| Plot.SampleFreqOfLast | record.py:91-100 | sample_freq is the rate of the last file that opened |
| Plot.SignalsNeedOpen | record.py:99-116 | a file that does not open adds no signal |
| Plot.SignalsNeedRate | record.py:99-116 | a collected signal means some file opened |
| Plot.LastOpenedExists | record.py:93-100 | when some file opened, one of them opened last |
| Plot.SampleFreqSet | record.py:91-100 | after n files, sample_freq is unset exactly when none of them opened, and otherwise is the rate of the last one that opened; a collected signal implies it is set |
| Plot.CrashNeedsZeroRate | record.py:121-124 | the call raises if and only if more than one signal got through and the last file that opened has a zero frame rate |
| Plot.NoCompositeTraceAlone | record.py:121-136 | with at most one signal the figure is shown with no composite and only the files' own traces, none of them dashed |
| Plot.SpectrumSignalsNonEmpty | record.py:111-116 | in a mode that draws spectra, every collected signal is non-empty |
| Plot.CompositeSpectrumNonEmpty | record.py:129-131 | the composite spectrum is never computed on zero samples |
| Plot.OneMissingOnePresent | record.py:93-127 | one missing and one good file in "Oscilloscope" give exactly that file's trace and signal, in the second palette colour and alpha, and no composite |

## Left out

- PyAudio device handling. Opening, reading, stopping and closing the stream
  are hardware calls. The model passes in the chunk each read returns, and
  `stream` keeps only whether it was never opened, is open, or is closed.
- Recorder.VoiceRecorder.constructor: requires at least one channel and a
  non-zero rate. The `wave` writer rejects other values at save time, and that
  save failure is not modelled.
- Threads. The capture loop runs in a daemon thread. The model runs it as a
  sequence of `CaptureStep` calls followed by `FinishCapture`, and a stop
  that arrives before the thread has opened its stream as a stop on the
  state before `OpenStream`. Left out with it: the race where
  `stop_recording` lowers the flag or closes the stream while the thread is
  inside `stream.read`, and the interleaving of the two saves (stop's and
  the thread's). In the model the thread's save writes the same file as the
  stop's, as `RecordSession` shows. In the program the read in flight when
  the flag drops is still appended (record.py:50-51), so the thread's save
  can hold one chunk more than the stop's; or that read raises on the
  stream the stop has just closed, and the thread ends without saving.
- Save failures: an unwritable path or a `wave.Error` in `wave.open(filename,
  "wb")` and the writes after it (record.py:75-80). `Save` always writes.
  In the program the exception is not caught anywhere.
- The RIFF byte layout of WAV files (Python's `wave` module). A file is its
  header fields plus its data bytes. `Unreadable` stands for any file the
  module cannot parse.
- File system details: the current directory, `os.makedirs` and the save
  directory. File existence is membership in a map.
- Floating point: `np.linspace` time axes, FFT magnitudes and frequencies, and
  float64 rounding of the composite. The composite is an exact rational
  mean, and frequencies are kept as integer bin numerators.
- Plotting: matplotlib figures, axis labels, grids, legends, `savefig` and
  `show`. A trace keeps its subplot, legend text, colour, alpha, point count
  and dash style. Console messages are not modelled.
- The `RecorderApp` widget class, button enabling and the plot-button check
  on the two files (record.py:34-37, 62, 66-70, 151-201). These are UI.

=== FILE: analysis.dfy ===
/** The analysis side of `VoiceRecorder.plot_recordings`, without the floating
    point: which subplots a mode asks for, the palette position of each file,
    how many spectrum bins are drawn, what each file contributes (a decoded
    signal, traces, or nothing when it is skipped), and the composite signal as
    an exact mean. */
module Analysis {

  import opened Wrappers
  import opened Pcm
  import opened Wav

  // ---------------------------------------------------------------- modes

  /** The modes offered by the mode selector are "Oscilloscope",
      "Spectrum Analyzer" and "Both"; any other string draws nothing. */
  predicate ShowsWaveform(mode: string)
    ensures ShowsWaveform(mode) <==> mode in ["Oscilloscope", "Both"]
  {
    mode == "Oscilloscope" || mode == "Both"
  }

  predicate ShowsSpectrum(mode: string)
    ensures ShowsSpectrum(mode) <==> mode in ["Spectrum Analyzer", "Both"]
  {
    mode == "Spectrum Analyzer" || mode == "Both"
  }

  /** Number of stacked subplots the figure is created with. */
  function SubplotCount(mode: string): (n: nat)
    ensures 1 <= n <= 2
    ensures n == 2 <==> mode == "Both"
  {
    if mode == "Both" then 2 else 1
  }

  /** Waveforms go to the first subplot (`ax[0]`). */
  const WaveformAxis: nat := 0

  /** Spectra go to the last subplot (`ax[-1]`). */
  function SpectrumAxis(mode: string): (a: nat)
    ensures a < SubplotCount(mode)
    ensures mode == "Both" ==> a == 1
    ensures mode != "Both" ==> a == WaveformAxis
  {
    SubplotCount(mode) - 1
  }

  /** Two subplots exactly for "Both", which is the one mode drawing both
      views, and then the two views go to different subplots; every view goes
      to a subplot that exists. */
  lemma SubplotLayout(mode: string)
    ensures SubplotCount(mode) == 2 <==> mode == "Both"
    ensures SubplotCount(mode) == 1 <==> mode != "Both"
    ensures ShowsWaveform(mode) && ShowsSpectrum(mode) <==> mode == "Both"
    ensures WaveformAxis < SubplotCount(mode) && SpectrumAxis(mode) < SubplotCount(mode)
    ensures ShowsWaveform(mode) && ShowsSpectrum(mode) ==> WaveformAxis != SpectrumAxis(mode)
  {
  }

  // -------------------------------------------------------------- palette

  const Colors: seq<string> := ["b", "g", "r", "c", "m", "y"]
  const AlphaValues: seq<real> := [0.7, 0.5, 0.3]

  /** Position in the colour list of the i-th file of the request. */
  function ColorIndex(i: nat): (k: nat)
    ensures k < |Colors|
  {
    i % |Colors|
  }

  /** Position in the alpha list of the i-th file: the last entry from the
      third file on. */
  function AlphaIndex(i: nat): (k: nat)
    ensures k < |AlphaValues|
  {
    if i < |AlphaValues| - 1 then i else |AlphaValues| - 1
  }

  /** Colours repeat every six files and the first six are all different;
      transparency never decreases (alpha never increases) along the list. */
  lemma PaletteOrder(i: nat, j: nat)
    requires i <= j
    ensures ColorIndex(i + |Colors|) == ColorIndex(i)
    ensures i < j < |Colors| ==> Colors[ColorIndex(i)] != Colors[ColorIndex(j)]
    ensures AlphaValues[AlphaIndex(i)] >= AlphaValues[AlphaIndex(j)]
    ensures i < j < |AlphaValues| ==> AlphaValues[AlphaIndex(i)] > AlphaValues[AlphaIndex(j)]
  {
  }

  // ------------------------------------------------------------- spectrum

  /** Number of leading bins drawn for an n-point transform (`n // 2`). */
  function SpectrumBins(n: nat): (b: nat)
    ensures 2 * b <= n <= 2 * b + 1
  {
    n / 2
  }

  /** numpy's `fftfreq(n, d)[k]` is `FreqNumerator(n, k) / (n * d)`: bins
      0 .. (n - 1) // 2 are the non-negative frequencies, the rest negative. */
  function FreqNumerator(n: nat, k: nat): (r: int)
    requires k < n
    ensures -(n as int) <= 2 * r < n
    ensures (k - r) % n == 0
  {
    if k <= (n - 1) / 2 then k else k - n
  }

  /** The drawn bins are the first half of the transform and all have
      non-negative frequency; of the bins left out, all are negative except,
      for an odd n, the single bin n // 2, whose frequency is positive (or
      zero when n is 1). */
  lemma SpectrumKeepsNonNegativeBins(n: nat)
    ensures 2 * SpectrumBins(n) <= n <= 2 * SpectrumBins(n) + 1
    ensures forall k :: 0 <= k < SpectrumBins(n) ==> FreqNumerator(n, k) == k
    ensures forall k :: SpectrumBins(n) <= k < n ==>
              FreqNumerator(n, k) < 0 || (n % 2 == 1 && k == n / 2 && FreqNumerator(n, k) == k)
  {
  }

  // ------------------------------------------------------------ composite

  /** Length of the shortest signal. */
  function MinLength(signals: seq<seq<int>>): (m: nat)
    requires |signals| > 0
    ensures forall j :: 0 <= j < |signals| ==> m <= |signals[j]|
    ensures exists j :: 0 <= j < |signals| && m == |signals[j]|
  {
    if |signals| == 1 then |signals[0]|
    else
      var rest := MinLength(signals[1..]);
      if |signals[0]| <= rest then |signals[0]| else rest
  }

  /** Sum over all signals of sample k. */
  function ColumnSum(signals: seq<seq<int>>, k: nat): int
    requires forall j :: 0 <= j < |signals| ==> k < |signals[j]|
  {
    if signals == [] then 0 else signals[0][k] + ColumnSum(signals[1..], k)
  }

  /** The composite signal: every signal cut to the shortest length, then the
      mean across signals at each sample index, kept exact. */
  function Composite(signals: seq<seq<int>>): (c: seq<real>)
    requires |signals| > 0
    ensures forall j :: 0 <= j < |signals| ==> |c| <= |signals[j]|
    ensures exists j :: 0 <= j < |signals| && |c| == |signals[j]|
    ensures forall k :: 0 <= k < |c| ==> c[k] * (|signals| as real) == ColumnSum(signals, k) as real
  {
    var m := MinLength(signals);
    seq(m, k requires 0 <= k < m => ColumnSum(signals, k) as real / |signals| as real)
  }

  /** Summing the same signal n times gives n times its sample. */
  lemma {:induction false} ColumnSumConstant(signals: seq<seq<int>>, s: seq<int>, k: nat)
    requires forall j :: 0 <= j < |signals| ==> signals[j] == s
    requires k < |s|
    ensures ColumnSum(signals, k) == |signals| * s[k]
  {
    if signals != [] {
      ColumnSumConstant(signals[1..], s, k);
    }
  }

  /** The composite of copies of one signal is that signal. */
  lemma CompositeOfIdentical(signals: seq<seq<int>>, s: seq<int>)
    requires |signals| > 0
    requires forall j :: 0 <= j < |signals| ==> signals[j] == s
    ensures |Composite(signals)| == |s|
    ensures forall k :: 0 <= k < |s| ==> Composite(signals)[k] == s[k] as real
  {
    var c := Composite(signals);
    forall k | 0 <= k < |s|
      ensures c[k] == s[k] as real
    {
      ColumnSumConstant(signals, s, k);
      assert c[k] * (|signals| as real) == (|signals| as real) * (s[k] as real);
    }
  }

  /** A column of samples that all lie in [lo, hi] sums to between n*lo and n*hi. */
  lemma {:induction false} ColumnSumBounds(signals: seq<seq<int>>, k: nat, lo: int, hi: int)
    requires forall j :: 0 <= j < |signals| ==> k < |signals[j]| && lo <= signals[j][k] <= hi
    ensures |signals| * lo <= ColumnSum(signals, k) <= |signals| * hi
  {
    if signals != [] {
      ColumnSumBounds(signals[1..], k, lo, hi);
    }
  }

  /** The mean never leaves the 16-bit range of its inputs, so the composite
      needs no clamping. */
  lemma CompositeInRange(signals: seq<seq<int>>)
    requires |signals| > 0
    requires forall j, k :: 0 <= j < |signals| && 0 <= k < |signals[j]| ==> -32768 <= signals[j][k] <= 32767
    ensures forall k :: 0 <= k < |Composite(signals)| ==> -32768.0 <= Composite(signals)[k] <= 32767.0
  {
    var c := Composite(signals);
    forall k | 0 <= k < |c|
      ensures -32768.0 <= c[k] <= 32767.0
    {
      ColumnSumBounds(signals, k, -32768, 32767);
      MeanInRange(|signals|, ColumnSum(signals, k), c[k], -32768, 32767);
    }
  }

  /** A mean x of cnt values whose sum lies in [cnt*lo, cnt*hi] lies in [lo, hi]. */
  lemma MeanInRange(cnt: nat, sum: int, x: real, lo: int, hi: int)
    requires cnt > 0 && cnt * lo <= sum <= cnt * hi
    requires x * (cnt as real) == sum as real
    ensures lo as real <= x <= hi as real
  {
    var n := cnt as real;
    assert (cnt * lo) as real == n * (lo as real);
    assert (cnt * hi) as real == n * (hi as real);
    assert n * (lo as real) <= n * x <= n * (hi as real);
  }

  /** Two takes of 100 and 150 samples give a composite of 100 samples, each
      the average of the two takes' samples. */
  lemma CompositeOfTwo(a: seq<int>, b: seq<int>)
    ensures |Composite([a, b])| == if |a| <= |b| then |a| else |b|
    ensures forall k :: 0 <= k < |Composite([a, b])| ==> Composite([a, b])[k] == (a[k] + b[k]) as real / 2.0
  {
    var c := Composite([a, b]);
    forall k | 0 <= k < |c|
      ensures c[k] == (a[k] + b[k]) as real / 2.0
    {
      assert [a, b][0] == a && [a, b][1] == b && [a, b][1..] == [b] && [b][1..] == [];
      assert k < |a| && k < |b|;
      assert ColumnSum([b], k) == b[k];
      assert ColumnSum([a, b], k) == a[k] + b[k];
    }
  }

  // ------------------------------------------------------- per-file step

  /** A line drawn on a subplot: which subplot, its legend entry, colour,
      alpha, number of points, and whether it is dashed. */
  datatype Trace = Trace(axis: nat, legend: string, colour: string, alpha: real, points: nat, dashed: bool)

  /** What one file contributes: the frame rate read from its header if it was
      opened (`sample_freq` is set before anything can fail), the traces drawn
      before any failure, and its decoded signal if it got through. */
  datatype FileOutcome = FileOutcome(rateRead: Option<nat>, traces: seq<Trace>, signal: Option<seq<int>>)

  /** The file is there and `wave.open` accepts it. */
  predicate Opens(file: string, fs: map<string, StoredFile>)
    ensures Opens(file, fs) <==> file in fs && fs[file].Wav? && fs[file].wav.channels > 0
                                 && fs[file].wav.sampleWidth > 0
  {
    file in fs && OpenWav(fs[file]).Some?
  }

  /** The signal a file contributes to the batch, stated as the conditions for
      getting through: it exists, opens, decodes into whole 16-bit samples, has
      a non-zero rate, its frame count matches its sample count when a
      waveform is drawn, and it is not empty when a spectrum is drawn. */
  function LoadedSignal(file: string, mode: string, fs: map<string, StoredFile>): (r: Option<seq<int>>)
    ensures r.Some? <==>
              && Opens(file, fs) && fs[file].wav.rate > 0
              && |fs[file].wav.data| % 2 == 0
              && (ShowsWaveform(mode) ==> 2 * NFrames(fs[file].wav) == |fs[file].wav.data|)
              && (ShowsSpectrum(mode) ==> |fs[file].wav.data| > 0)
    ensures r.Some? ==> r == DecodeSamples(fs[file].wav.data) && 2 * |r.value| == |fs[file].wav.data|
  {
    if file !in fs || OpenWav(fs[file]).None? then None
    else
      var w := OpenWav(fs[file]).value;
      var s := ReadSignal(w);
      if s.Some? && w.rate > 0
         && (ShowsWaveform(mode) ==> NFrames(w) == |s.value|)
         && (ShowsSpectrum(mode) ==> |s.value| > 0)
      then s else None
  }

  /** One pass of the loop body over file number i, step by step as the code
      runs: a missing file is reported and skipped; any exception inside the
      `try` skips the rest of that file, keeping what was already drawn. */
  function ProcessFile(i: nat, file: string, mode: string, fs: map<string, StoredFile>): (o: FileOutcome)
    ensures o.signal == LoadedSignal(file, mode, fs)
    ensures file !in fs ==> o == FileOutcome(None, [], None)
    ensures |o.traces| <= 2
    ensures o.rateRead.Some? <==> Opens(file, fs)
    ensures o.rateRead.Some? ==> fs[file].Wav? && o.rateRead.value == fs[file].wav.rate
    ensures forall t :: t in o.traces ==>
              t.legend == file && !t.dashed && t.axis < SubplotCount(mode)
              && t.colour == Colors[ColorIndex(i)] && t.alpha == AlphaValues[AlphaIndex(i)]
    ensures o.signal.Some? ==>
              o.traces == (if ShowsWaveform(mode) then [Trace(WaveformAxis, file, Colors[ColorIndex(i)],
                                                          AlphaValues[AlphaIndex(i)], |o.signal.value|, false)] else [])
                        + (if ShowsSpectrum(mode) then [Trace(SpectrumAxis(mode), file, Colors[ColorIndex(i)],
                                                          AlphaValues[AlphaIndex(i)], SpectrumBins(|o.signal.value|), false)] else [])
    ensures o.signal.None? && o.traces != [] ==>
              mode == "Both" && |o.traces| == 1 && o.traces[0].axis == WaveformAxis && o.traces[0].points == 0
  {
    if file !in fs then FileOutcome(None, [], None)
    else match OpenWav(fs[file])
      case None => FileOutcome(None, [], None)
      case Some(w) =>
        var rate := Some(w.rate);
        match ReadSignal(w)
        case None => FileOutcome(rate, [], None)
        case Some(s) =>
          if w.rate == 0 then FileOutcome(rate, [], None)
          else
            var colour := Colors[ColorIndex(i)];
            var alpha := AlphaValues[AlphaIndex(i)];
            if ShowsWaveform(mode) && NFrames(w) != |s| then FileOutcome(rate, [], None)
            else
              var wave := if ShowsWaveform(mode) then [Trace(WaveformAxis, file, colour, alpha, |s|, false)] else [];
              if ShowsSpectrum(mode) && |s| == 0 then FileOutcome(rate, wave, None)
              else
                var spectrum := if ShowsSpectrum(mode)
                                then [Trace(SpectrumAxis(mode), file, colour, alpha, SpectrumBins(|s|), false)]
                                else [];
                FileOutcome(rate, wave + spectrum, Some(s))
  }
}

=== FILE: arith.dfy ===
/** Facts of integer arithmetic that the solver does not find on its own,
    used to count the frames of a saved take. */
module Arith {

  /** Multiplication regroups. */
  lemma MulAssoc(a: nat, b: nat, d: nat)
    ensures a * (b * d) == (a * b) * d
  {
  }

  /** A non-zero multiple of d is at least d in size. */
  lemma MulBounds(k: int, d: int)
    requires d > 0
    ensures k >= 1 ==> k * d >= d
    ensures k <= -1 ==> k * d <= -d
  {
  }

  /** Dividing a multiple of d by d gives back the factor. */
  lemma MulDivCancel(n: nat, d: nat)
    requires d > 0
    ensures (n * d) / d == n
  {
    var q, r := (n * d) / d, (n * d) % d;
    assert n * d == q * d + r && 0 <= r < d;
    assert (n - q) * d == r;
    MulBounds(n - q, d);
  }
}

=== FILE: lifecycle.dfy ===
/** The recorder's lifecycle as values: the state `VoiceRecorder` keeps in its
    fields, each operation as a transition on that state, and the file that
    `save_recording` writes. The `VoiceRecorder` class is proved against these
    functions, and the lemmas below state what a whole recording session does. */
module Lifecycle {

  import opened Wrappers
  import opened Pcm
  import opened Wav
  import opened Arith

  /** The fixed capture configuration given to the constructor. */
  datatype Config = Config(framesPerBuffer: nat, format: SampleFormat, channels: nat, rate: nat)

  /** The constructor's defaults: 3200 frames per read, 16-bit, mono, 16000 Hz. */
  const DefaultConfig := Config(3200, PaInt16, 1, 16000)

  /** Bytes one `stream.read(frames_per_buffer)` returns. */
  function ChunkBytes(c: Config): nat
  {
    c.framesPerBuffer * c.channels * SampleSize(c.format)
  }

  /** The input stream handle: never opened, open, or stopped and closed. */
  datatype Stream = NoStream | Open | Closed

  /** The fields `currently_recording`, `filename`, `frames` and `stream`. */
  datatype RecorderState = RecorderState(recording: bool, filename: string, frames: seq<seq<Byte>>, stream: Stream)

  /** A freshly constructed recorder. */
  const Initial := RecorderState(false, "", [], NoStream)

  /** `start_recording`: the take's name is set, the buffer emptied and the
      flag raised; the stream handle is left to the capture thread. */
  function AfterStart(s: RecorderState, filename: string): (r: RecorderState)
    ensures r.recording && r.filename == filename && r.frames == [] && r.stream == s.stream
  {
    s.(filename := filename, frames := [], recording := true)
  }

  /** The capture thread opening its input stream; nothing else changes. */
  function AfterOpen(s: RecorderState): (r: RecorderState)
    ensures r.stream == Open
    ensures r.recording == s.recording && r.filename == s.filename && r.frames == s.frames
  {
    s.(stream := Open)
  }

  /** One test of the capture loop's condition: while the flag is up, the chunk
      read is appended; otherwise the loop has ended and nothing changes. */
  function AfterCapture(s: RecorderState, chunk: seq<Byte>): (r: RecorderState)
    ensures r.recording == s.recording && r.filename == s.filename && r.stream == s.stream
    ensures |r.frames| == |s.frames| + (if s.recording then 1 else 0)
    ensures r.frames[..|s.frames|] == s.frames
    ensures s.recording ==> r.frames[|s.frames|] == chunk
  {
    if s.recording then s.(frames := s.frames + [chunk]) else s
  }

  /** `stop_recording`: the flag is lowered and an open stream is stopped and
      closed. A stream object that an earlier stop already closed stays
      closed: PyAudio's `stop_stream` returns at once on a stream that is not
      running, and closing it again does nothing. */
  function AfterStop(s: RecorderState): (r: RecorderState)
    ensures !r.recording && r.filename == s.filename && r.frames == s.frames
    ensures r.stream == (if s.stream == Open then Closed else s.stream)
    ensures r.stream != Open
  {
    s.(recording := false, stream := if s.stream == Open then Closed else s.stream)
  }

  /** `toggle_recording`: stop while recording, start otherwise. */
  function AfterToggle(s: RecorderState, filename: string): (r: RecorderState)
    ensures s.recording ==> !r.recording && r.filename == s.filename && r.frames == s.frames
    ensures !s.recording ==> r.recording && r.filename == filename && r.frames == []
    ensures r.stream == (if s.recording && s.stream == Open then Closed else s.stream)
  {
    if s.recording then AfterStop(s) else AfterStart(s, filename)
  }

  /** The capture loop fed one chunk per read, in order. */
  function AfterCaptures(s: RecorderState, chunks: seq<seq<Byte>>): (r: RecorderState)
    ensures r.recording == s.recording && r.filename == s.filename && r.stream == s.stream
    ensures |s.frames| <= |r.frames| <= |s.frames| + |chunks|
    ensures r.frames[..|s.frames|] == s.frames
    decreases |chunks|
  {
    if chunks == [] then s else AfterCaptures(AfterCapture(s, chunks[0]), chunks[1..])
  }

  /** The WAV file `save_recording` writes for these frames: the header from the
      fixed configuration and the chunks joined in capture order. With at least
      one channel it is a file the `wave` reader opens again. */
  function TakeFile(c: Config, frames: seq<seq<Byte>>): (w: WavFile)
    ensures w.channels == c.channels && w.sampleWidth == SampleSize(c.format) && w.rate == c.rate
    ensures w.data == Concat(frames) && |w.data| == TotalLength(frames)
    ensures c.channels >= 1 <==> OpenWav(Wav(w)) == Some(w)
  {
    WavFile(c.channels, SampleSize(c.format), c.rate, Concat(frames))
  }

  /** What `save_recording` writes, and where: nothing when no filename is set. */
  function SaveOutput(c: Config, s: RecorderState): (r: Option<(string, WavFile)>)
    ensures r.None? <==> s.filename == ""
    ensures r.Some? ==> r.value.0 == s.filename && r.value.1.data == Concat(s.frames)
    ensures r.Some? ==> r.value.1.channels == c.channels && r.value.1.rate == c.rate
                        && r.value.1.sampleWidth == SampleSize(c.format)
  {
    if s.filename == "" then None else Some((s.filename, TakeFile(c, s.frames)))
  }

  /** While the flag is up, each chunk read is appended, in read order, and
      nothing else changes. */
  lemma {:induction false} CaptureAppendsInOrder(s: RecorderState, chunks: seq<seq<Byte>>)
    requires s.recording
    ensures AfterCaptures(s, chunks) == s.(frames := s.frames + chunks)
    decreases |chunks|
  {
    if chunks != [] {
      var s' := AfterCapture(s, chunks[0]);
      CaptureAppendsInOrder(s', chunks[1..]);
      assert s.frames + [chunks[0]] + chunks[1..] == s.frames + chunks;
    }
  }

  /** Once the flag is down, further reads append nothing. */
  lemma {:induction false} NoCaptureAfterStop(s: RecorderState, chunks: seq<seq<Byte>>)
    requires !s.recording
    ensures AfterCaptures(s, chunks) == s
    decreases |chunks|
  {
    if chunks != [] {
      NoCaptureAfterStop(s, chunks[1..]);
    }
  }

  /** Starting a take empties the buffer whatever it held, so a session's file
      holds exactly the chunks read during that session, joined in order, under
      the configured header: the stop writes it, and the capture thread, whose
      later reads append nothing, writes it again on its way out. */
  lemma SessionWritesItsChunks(c: Config, s: RecorderState, filename: string,
                               chunks: seq<seq<Byte>>, late: seq<seq<Byte>>)
    requires filename != ""
    ensures var rec := AfterCaptures(AfterOpen(AfterStart(s, filename)), chunks);
            rec.frames == chunks
            && SaveOutput(c, AfterStop(rec)) == Some((filename, TakeFile(c, chunks)))
    ensures var done := AfterCaptures(AfterStop(AfterCaptures(AfterOpen(AfterStart(s, filename)), chunks)), late);
            done.frames == chunks && !done.recording && done.stream == Closed
            && SaveOutput(c, done) == Some((filename, WavFile(c.channels, SampleSize(c.format), c.rate, Concat(chunks))))
  {
    var t := AfterOpen(AfterStart(s, filename));
    CaptureAppendsInOrder(t, chunks);
    assert t.frames + chunks == chunks;
    NoCaptureAfterStop(AfterStop(AfterCaptures(t, chunks)), late);
  }

  /** Stopping a recorder that was never started, whatever reads come in,
      leaves the buffer empty and writes no file. */
  lemma NeverStartedWritesNothing(c: Config, chunks: seq<seq<Byte>>)
    ensures AfterStop(AfterCaptures(Initial, chunks)).frames == []
    ensures SaveOutput(c, AfterStop(AfterCaptures(Initial, chunks))) == None
  {
    NoCaptureAfterStop(Initial, chunks);
  }

  /** Toggling twice from idle runs one take: once the capture thread has
      opened its stream, the second toggle stops the take the first one
      started, closes the stream, and the take is what gets saved. */
  lemma ToggleTwiceSaves(c: Config, s: RecorderState, filename: string, chunks: seq<seq<Byte>>)
    requires !s.recording && filename != ""
    ensures var rec := AfterCaptures(AfterOpen(AfterToggle(s, filename)), chunks);
            var t := AfterToggle(rec, filename);
            rec.recording && !t.recording && t.stream == Closed
            && SaveOutput(c, t) == Some((filename, TakeFile(c, chunks)))
  {
    CaptureAppendsInOrder(AfterOpen(AfterToggle(s, filename)), chunks);
    assert [] + chunks == chunks;
  }

  /** A second take stopped before its capture thread has replaced the first
      take's closed stream: the stop finds that stream closed, which PyAudio
      passes over, lowers the flag and saves the new take empty; the thread
      then opens its stream, finds the flag down, reads nothing, and saves the
      same empty take again. */
  lemma StopBeforeReopen(c: Config, s: RecorderState, filename: string, late: seq<seq<Byte>>)
    requires !s.recording && s.stream == Closed && filename != ""
    ensures var t := AfterStop(AfterToggle(s, filename));
            !t.recording && t.stream == Closed
            && SaveOutput(c, t) == Some((filename, TakeFile(c, [])))
    ensures var done := AfterCaptures(AfterOpen(AfterStop(AfterToggle(s, filename))), late);
            !done.recording && done.stream == Open && done.frames == []
            && SaveOutput(c, done) == Some((filename, TakeFile(c, [])))
  {
    NoCaptureAfterStop(AfterOpen(AfterStop(AfterToggle(s, filename))), late);
  }

  /** With full reads of `frames_per_buffer` frames, the saved take holds exactly
      `frames_per_buffer` frames per read and reads back as the joined chunks. */
  lemma {:induction false} SavedTakeFrames(c: Config, chunks: seq<seq<Byte>>)
    requires c.channels >= 1
    requires forall j :: 0 <= j < |chunks| ==> |chunks[j]| == ChunkBytes(c)
    ensures FrameSize(TakeFile(c, chunks)) > 0
    ensures NFrames(TakeFile(c, chunks)) == |chunks| * c.framesPerBuffer
    ensures OpenWav(Wav(TakeFile(c, chunks))) == Some(TakeFile(c, chunks))
  {
    var w := TakeFile(c, chunks);
    var fs := c.channels * SampleSize(c.format);
    var n := |chunks| * c.framesPerBuffer;
    TotalLengthUniform(chunks, ChunkBytes(c));
    assert ChunkBytes(c) == c.framesPerBuffer * fs;
    MulAssoc(|chunks|, c.framesPerBuffer, fs);
    assert |w.data| == n * fs;
    MulDivCancel(n, fs);
  }

  /** A mono 16-bit take (the default configuration) reads back as the samples
      of each chunk, chunk after chunk: `frames_per_buffer` samples per read. */
  lemma SavedTakeSamples(c: Config, chunks: seq<seq<Byte>>)
    requires c.channels == 1 && c.format == PaInt16
    requires forall j :: 0 <= j < |chunks| ==> |chunks[j]| == 2 * c.framesPerBuffer
    ensures FrameSize(TakeFile(c, chunks)) > 0
    ensures ReadSignal(TakeFile(c, chunks)) == Some(DecodeChunks(chunks))
    ensures |DecodeChunks(chunks)| == |chunks| * c.framesPerBuffer
  {
    var w := TakeFile(c, chunks);
    assert FrameSize(w) == 2;
    assert ChunkBytes(c) == 2 * c.framesPerBuffer;
    SavedTakeFrames(c, chunks);
    assert forall j :: 0 <= j < |chunks| ==> |chunks[j]| % 2 == 0;
    DecodeConcat(chunks);
    assert ReadSignal(w) == DecodeSamples(Concat(chunks));
    TotalLengthUniform(chunks, 2 * c.framesPerBuffer);
    MulAssoc(|chunks|, c.framesPerBuffer, 2);
  }
}

=== FILE: pcm.dfy ===
/** Raw PCM audio as byte strings: the chunks the input stream delivers, their
    concatenation into a WAV data chunk, and the decoding of that data into
    signed 16-bit samples (numpy's `frombuffer(..., dtype=int16)`). */
module Pcm {

  import opened Wrappers

  type Byte = b: int | 0 <= b < 256

  /** Number of bytes held by a list of chunks. */
  function TotalLength(chunks: seq<seq<Byte>>): nat
  {
    if chunks == [] then 0 else |chunks[0]| + TotalLength(chunks[1..])
  }

  /** `b"".join(chunks)`: the chunks back to back, in list order. */
  function Concat(chunks: seq<seq<Byte>>): (r: seq<Byte>)
    ensures |r| == TotalLength(chunks)
  {
    if chunks == [] then [] else chunks[0] + Concat(chunks[1..])
  }

  /** Appending a chunk to the list appends its bytes to the join. */
  lemma {:induction false} ConcatAppend(chunks: seq<seq<Byte>>, c: seq<Byte>)
    ensures Concat(chunks + [c]) == Concat(chunks) + c
  {
    if chunks == [] {
      assert [] + [c] == [c];
      assert Concat([c]) == c + Concat([]);
    } else {
      assert (chunks + [c])[0] == chunks[0];
      assert (chunks + [c])[1..] == chunks[1..] + [c];
      ConcatAppend(chunks[1..], c);
    }
  }

  /** Byte k of chunk i sits in the join right after all bytes of the chunks
      before it: the join keeps capture order and drops nothing. */
  lemma {:induction false} ConcatAt(chunks: seq<seq<Byte>>, i: nat, k: nat)
    requires i < |chunks| && k < |chunks[i]|
    ensures TotalLength(chunks[..i]) + k < |Concat(chunks)|
    ensures Concat(chunks)[TotalLength(chunks[..i]) + k] == chunks[i][k]
  {
    if i == 0 {
      assert chunks[..0] == [];
    } else {
      ConcatAt(chunks[1..], i - 1, k);
      assert chunks[..i][0] == chunks[0];
      assert chunks[..i][1..] == chunks[1..][..i - 1];
    }
  }

  /** Chunks of one fixed size n join into |chunks| * n bytes. */
  lemma {:induction false} TotalLengthUniform(chunks: seq<seq<Byte>>, n: nat)
    requires forall j :: 0 <= j < |chunks| ==> |chunks[j]| == n
    ensures TotalLength(chunks) == |chunks| * n
  {
    if chunks != [] {
      TotalLengthUniform(chunks[1..], n);
    }
  }

  /** A little-endian two's-complement 16-bit sample from its low and high byte. */
  function DecodeSample(lo: Byte, hi: Byte): (s: int)
    ensures -32768 <= s <= 32767
    ensures s % 65536 == lo + 256 * hi
  {
    var u := lo + 256 * hi;
    if u < 32768 then u else u - 65536
  }

  /** The two bytes, low first, that store a 16-bit sample. */
  function EncodeSample(s: int): (b: seq<Byte>)
    requires -32768 <= s <= 32767
    ensures |b| == 2 && DecodeSample(b[0], b[1]) == s
  {
    var u := if s < 0 then s + 65536 else s;
    [u % 256, u / 256]
  }

  /** Decoding a byte pair and encoding the sample again gives back the pair. */
  lemma EncodeDecodeSample(lo: Byte, hi: Byte)
    ensures EncodeSample(DecodeSample(lo, hi)) == [lo, hi]
  {
  }

  /** `np.frombuffer(data, dtype=np.int16)`: one sample per byte pair, in order;
      numpy refuses a buffer whose length is not a multiple of two. */
  function DecodeSamples(data: seq<Byte>): (r: Option<seq<int>>)
    ensures r.Some? <==> |data| % 2 == 0
    ensures r.Some? ==> 2 * |r.value| == |data|
    ensures r.Some? ==> forall k :: 0 <= k < |r.value| ==>
              r.value[k] == DecodeSample(data[2 * k], data[2 * k + 1])
    decreases |data|
  {
    if |data| == 0 then Some([])
    else if |data| == 1 then None
    else match DecodeSamples(data[2..])
      case None => None
      case Some(rest) => Some([DecodeSample(data[0], data[1])] + rest)
  }

  /** The bytes of a list of 16-bit samples, each stored low byte first. */
  function EncodeSamples(samples: seq<int>): (b: seq<Byte>)
    requires forall k :: 0 <= k < |samples| ==> -32768 <= samples[k] <= 32767
    ensures |b| == 2 * |samples|
  {
    if samples == [] then [] else EncodeSample(samples[0]) + EncodeSamples(samples[1..])
  }

  /** Decoding inverts encoding: 16-bit PCM bytes are a faithful store of the samples. */
  lemma {:induction false} DecodeEncode(samples: seq<int>)
    requires forall k :: 0 <= k < |samples| ==> -32768 <= samples[k] <= 32767
    ensures DecodeSamples(EncodeSamples(samples)) == Some(samples)
  {
    if samples != [] {
      var b := EncodeSamples(samples);
      assert b[2..] == EncodeSamples(samples[1..]);
      DecodeEncode(samples[1..]);
      assert [samples[0]] + samples[1..] == samples;
    }
  }

  /** Encoding inverts decoding: the decoded samples determine the bytes. */
  lemma {:induction false} EncodeDecode(data: seq<Byte>)
    requires |data| % 2 == 0
    ensures DecodeSamples(data).Some?
    ensures EncodeSamples(DecodeSamples(data).value) == data
    decreases |data|
  {
    if |data| > 0 {
      EncodeDecode(data[2..]);
      var s := DecodeSamples(data).value;
      assert s[1..] == DecodeSamples(data[2..]).value;
      EncodeDecodeSample(data[0], data[1]);
      assert data == [data[0], data[1]] + data[2..];
    }
  }

  /** Decoding an even-length prefix and the rest separately gives the same samples. */
  lemma {:induction false} DecodeAppend(a: seq<Byte>, b: seq<Byte>)
    requires |a| % 2 == 0 && |b| % 2 == 0
    ensures DecodeSamples(a + b) == Some(DecodeSamples(a).value + DecodeSamples(b).value)
    decreases |a|
  {
    if |a| == 0 {
      assert a + b == b;
      assert DecodeSamples(a).value == [];
      assert DecodeSamples(b).Some?;
      assert [] + DecodeSamples(b).value == DecodeSamples(b).value;
    } else {
      assert (a + b)[2..] == a[2..] + b;
      DecodeAppend(a[2..], b);
      assert (a + b)[0] == a[0] && (a + b)[1] == a[1];
      var x := DecodeSample(a[0], a[1]);
      assert DecodeSamples(a).value == [x] + DecodeSamples(a[2..]).value;
      assert DecodeSamples(a + b).value == [x] + DecodeSamples(a[2..] + b).value;
      assert [x] + (DecodeSamples(a[2..]).value + DecodeSamples(b).value)
          == ([x] + DecodeSamples(a[2..]).value) + DecodeSamples(b).value;
    }
  }

  /** The samples of each chunk decoded on its own, chunk after chunk. */
  function DecodeChunks(chunks: seq<seq<Byte>>): (r: seq<int>)
    requires forall j :: 0 <= j < |chunks| ==> |chunks[j]| % 2 == 0
    ensures 2 * |r| == TotalLength(chunks)
  {
    if chunks == [] then [] else DecodeSamples(chunks[0]).value + DecodeChunks(chunks[1..])
  }

  /** Decoding the join of even-length chunks is decoding them one by one, in order. */
  lemma {:induction false} DecodeConcat(chunks: seq<seq<Byte>>)
    requires forall j :: 0 <= j < |chunks| ==> |chunks[j]| % 2 == 0
    ensures DecodeSamples(Concat(chunks)) == Some(DecodeChunks(chunks))
  {
    if chunks != [] {
      DecodeConcat(chunks[1..]);
      DecodeAppend(chunks[0], Concat(chunks[1..]));
    }
  }
}

=== FILE: plot.dfy ===
/** The batch loop of `plot_recordings` and what follows it: files are
    processed in request order, each skipped file leaves the batch going, the
    decoded signals are collected in file order, and a composite is drawn when
    more than one signal got through. */
module Plot {

  import opened Wrappers
  import opened Wav
  import opened Analysis

  /** The loop's running state: `signals`, the traces drawn so far, and
      `sample_freq` (the rate of the last file whose header was read). */
  datatype Batch = Batch(signals: seq<seq<int>>, traces: seq<Trace>, sampleFreq: Option<nat>)

  /** The figure as drawn, or the uncaught exception that ends the call. */
  datatype PlotResult =
    | Shown(subplots: nat, traces: seq<Trace>, signals: seq<seq<int>>, composite: Option<seq<real>>)
    | Crashed

  /** The signal of a file as a list of zero or one signals. */
  function AsList(s: Option<seq<int>>): seq<seq<int>>
  {
    if s.Some? then [s.value] else []
  }

  /** The batch state after one more file. */
  function AddOutcome(b: Batch, o: FileOutcome): (r: Batch)
    ensures b.signals <= r.signals && |r.signals| <= |b.signals| + 1
    ensures b.traces <= r.traces
    ensures b.sampleFreq.Some? ==> r.sampleFreq.Some?
  {
    Batch(b.signals + AsList(o.signal), b.traces + o.traces,
          if o.rateRead.Some? then o.rateRead else b.sampleFreq)
  }

  /** The batch state after the first n files of the request. */
  function BatchOf(files: seq<string>, mode: string, fs: map<string, StoredFile>, n: nat): (b: Batch)
    requires n <= |files|
    ensures |b.signals| <= n && |b.traces| <= 2 * n
    ensures forall t :: t in b.traces ==> !t.dashed && t.axis < SubplotCount(mode)
  {
    if n == 0 then Batch([], [], None)
    else AddOutcome(BatchOf(files, mode, fs, n - 1), ProcessFile(n - 1, files[n - 1], mode, fs))
  }

  /** Reference definition of the collected signals: the loadable files'
      signals, in file order. */
  function Signals(files: seq<string>, mode: string, fs: map<string, StoredFile>): seq<seq<int>>
  {
    if files == [] then [] else AsList(LoadedSignal(files[0], mode, fs)) + Signals(files[1..], mode, fs)
  }

  /** The traces for the composite signal, dashed and labelled "Composite Signal". */
  function CompositeTraces(mode: string, length: nat): (r: seq<Trace>)
    ensures |r| == (if ShowsWaveform(mode) then 1 else 0) + (if ShowsSpectrum(mode) then 1 else 0)
    ensures forall t :: t in r ==> t.dashed && t.legend == "Composite Signal" && t.alpha == 0.8
                                   && t.axis < SubplotCount(mode)
    ensures ShowsWaveform(mode) ==> r[0].axis == WaveformAxis && r[0].points == length
    ensures ShowsSpectrum(mode) ==> r[|r| - 1].axis == SpectrumAxis(mode) && r[|r| - 1].points == SpectrumBins(length)
  {
    (if ShowsWaveform(mode) then [Trace(WaveformAxis, "Composite Signal", "r", 0.8, length, true)] else [])
    + (if ShowsSpectrum(mode)
       then [Trace(SpectrumAxis(mode), "Composite Signal", "red", 0.8, SpectrumBins(length), true)]
       else [])
  }

  /** The whole call: with more than one signal the composite's time axis
      divides by `sample_freq`, which raises when the last header read had a
      zero rate (even if that file was itself skipped). */
  function PlotOutcome(files: seq<string>, mode: string, fs: map<string, StoredFile>): (p: PlotResult)
    ensures p.Crashed? ==> |BatchOf(files, mode, fs, |files|).signals| > 1
    ensures p.Shown? ==> p.subplots == SubplotCount(mode)
                         && p.signals == BatchOf(files, mode, fs, |files|).signals
                         && (p.composite.Some? <==> |p.signals| > 1)
                         && p.traces == BatchOf(files, mode, fs, |files|).traces
                                        + (if p.composite.Some? then CompositeTraces(mode, |p.composite.value|) else [])
  {
    var b := BatchOf(files, mode, fs, |files|);
    if |b.signals| > 1 then
      if b.sampleFreq.Some? && b.sampleFreq.value > 0 then
        var c := Composite(b.signals);
        Shown(SubplotCount(mode), b.traces + CompositeTraces(mode, |c|), b.signals, Some(c))
      else Crashed
    else Shown(SubplotCount(mode), b.traces, b.signals, None)
  }

  /** `plot_recordings` without the drawing: the loop over the files, then the
      composite. */
  method PlotRecordings(files: seq<string>, mode: string, fs: map<string, StoredFile>)
    returns (p: PlotResult)
    ensures p == PlotOutcome(files, mode, fs)
  {
    var signals: seq<seq<int>> := [];
    var traces: seq<Trace> := [];
    var sampleFreq: Option<nat> := None;
    for i := 0 to |files|
      invariant Batch(signals, traces, sampleFreq) == BatchOf(files, mode, fs, i)
    {
      var o := ProcessFile(i, files[i], mode, fs);
      assert BatchOf(files, mode, fs, i + 1) == AddOutcome(BatchOf(files, mode, fs, i), o);
      if o.rateRead.Some? {
        sampleFreq := o.rateRead;
      }
      traces := traces + o.traces;
      if o.signal.Some? {
        signals := signals + [o.signal.value];
      }
    }
    if |signals| > 1 {
      if !(sampleFreq.Some? && sampleFreq.value > 0) {
        return Crashed;
      }
      var c := Composite(signals);
      traces := traces + CompositeTraces(mode, |c|);
      return Shown(SubplotCount(mode), traces, signals, Some(c));
    }
    return Shown(SubplotCount(mode), traces, signals, None);
  }

  /** Adding a file at the end adds its signal, if any, at the end. */
  lemma {:induction false} SignalsAppend(files: seq<string>, file: string, mode: string, fs: map<string, StoredFile>)
    ensures Signals(files + [file], mode, fs) == Signals(files, mode, fs) + AsList(LoadedSignal(file, mode, fs))
  {
    if files == [] {
      assert [] + [file] == [file];
    } else {
      assert (files + [file])[0] == files[0];
      assert (files + [file])[1..] == files[1..] + [file];
      SignalsAppend(files[1..], file, mode, fs);
    }
  }

  /** The loop collects exactly the reference signals of the files it has
      passed, in file order. */
  lemma {:induction false} BatchSignals(files: seq<string>, mode: string, fs: map<string, StoredFile>, n: nat)
    requires n <= |files|
    ensures BatchOf(files, mode, fs, n).signals == Signals(files[..n], mode, fs)
  {
    if n > 0 {
      BatchSignals(files, mode, fs, n - 1);
      assert files[..n] == files[..n - 1] + [files[n - 1]];
      SignalsAppend(files[..n - 1], files[n - 1], mode, fs);
    }
  }

  /** The signals of two lists of files one after the other. */
  lemma {:induction false} SignalsConcat(a: seq<string>, b: seq<string>, mode: string, fs: map<string, StoredFile>)
    ensures Signals(a + b, mode, fs) == Signals(a, mode, fs) + Signals(b, mode, fs)
  {
    if a == [] {
      assert a + b == b;
    } else {
      assert (a + b)[0] == a[0];
      assert (a + b)[1..] == a[1..] + b;
      SignalsConcat(a[1..], b, mode, fs);
    }
  }

  /** A missing file is skipped and the batch goes on: the signals are those of
      the request without it. */
  lemma SkipsMissingFile(a: seq<string>, file: string, b: seq<string>, mode: string, fs: map<string, StoredFile>)
    requires file !in fs
    ensures Signals(a + [file] + b, mode, fs) == Signals(a + b, mode, fs)
  {
    SignalsConcat(a + [file], b, mode, fs);
    SignalsConcat(a, [file], mode, fs);
    SignalsConcat(a, b, mode, fs);
    assert LoadedSignal(file, mode, fs) == None;
    assert [file][1..] == [];
    assert Signals([file], mode, fs) == [];
  }

  /** Every collected signal is the signal of some file of the request, so at
      most one per file. */
  lemma {:induction false} SignalsFromFiles(files: seq<string>, mode: string, fs: map<string, StoredFile>)
    ensures |Signals(files, mode, fs)| <= |files|
    ensures forall s :: s in Signals(files, mode, fs) ==>
              exists f :: f in files && LoadedSignal(f, mode, fs) == Some(s)
  {
    if files != [] {
      SignalsFromFiles(files[1..], mode, fs);
      forall s | s in Signals(files, mode, fs)
        ensures exists f :: f in files && LoadedSignal(f, mode, fs) == Some(s)
      {
        if s in AsList(LoadedSignal(files[0], mode, fs)) {
          assert LoadedSignal(files[0], mode, fs) == Some(s);
        } else {
          var f :| f in files[1..] && LoadedSignal(f, mode, fs) == Some(s);
          assert f in files;
        }
      }
    }
  }

  /** When the figure is shown it has the mode's subplots, the reference
      signals in file order, and a composite exactly when more than one signal
      got through, the exact mean of those signals. */
  lemma PlotShowsSignals(files: seq<string>, mode: string, fs: map<string, StoredFile>)
    ensures var p := PlotOutcome(files, mode, fs);
            p.Shown? ==>
              && p.subplots == SubplotCount(mode)
              && p.signals == Signals(files, mode, fs)
              && (p.composite.Some? <==> |p.signals| > 1)
              && (p.composite.Some? ==> p.composite.value == Composite(p.signals))
  {
    BatchSignals(files, mode, fs, |files|);
    assert files[..|files|] == files;
  }

  /** File k is the last of the first n files of the request that opened. */
  predicate LastOpened(files: seq<string>, fs: map<string, StoredFile>, n: nat, k: int)
    requires n <= |files|
  {
    0 <= k < n && Opens(files[k], fs) && forall j :: k < j < n ==> !Opens(files[j], fs)
  }

  /** One more file sets `sample_freq` to its rate exactly when it opens. */
  lemma SampleFreqStep(files: seq<string>, mode: string, fs: map<string, StoredFile>, n: nat)
    requires 0 < n <= |files|
    ensures BatchOf(files, mode, fs, n).sampleFreq ==
              if Opens(files[n - 1], fs) then Some(fs[files[n - 1]].wav.rate)
              else BatchOf(files, mode, fs, n - 1).sampleFreq
  {
    var o := ProcessFile(n - 1, files[n - 1], mode, fs);
    assert BatchOf(files, mode, fs, n) == AddOutcome(BatchOf(files, mode, fs, n - 1), o);
  }

  /** `sample_freq` is unset exactly while no file has opened. */
  lemma {:induction false} SampleFreqUnset(files: seq<string>, mode: string, fs: map<string, StoredFile>, n: nat)
    requires n <= |files|
    ensures BatchOf(files, mode, fs, n).sampleFreq.None? <==> forall j :: 0 <= j < n ==> !Opens(files[j], fs)
  {
    if n > 0 {
      SampleFreqUnset(files, mode, fs, n - 1);
      SampleFreqStep(files, mode, fs, n);
    }
  }

  /** `sample_freq` holds the rate of the last file that opened. */
  lemma {:induction false} SampleFreqOfLast(files: seq<string>, mode: string, fs: map<string, StoredFile>, n: nat, k: int)
    requires n <= |files| && LastOpened(files, fs, n, k)
    ensures BatchOf(files, mode, fs, n).sampleFreq == Some(fs[files[k]].wav.rate)
  {
    SampleFreqStep(files, mode, fs, n);
    if k < n - 1 {
      SampleFreqOfLast(files, mode, fs, n - 1, k);
    }
  }

  /** A collected signal means some file opened. */
  lemma {:induction false} SignalsNeedRate(files: seq<string>, mode: string, fs: map<string, StoredFile>, n: nat)
    requires n <= |files|
    ensures BatchOf(files, mode, fs, n).signals != [] ==> exists j :: 0 <= j < n && Opens(files[j], fs)
  {
    if n > 0 {
      if Opens(files[n - 1], fs) {
        assert 0 <= n - 1 < n && Opens(files[n - 1], fs);
      } else {
        SignalsNeedRate(files, mode, fs, n - 1);
        SignalsNeedOpen(files, mode, fs, n);
      }
    }
  }

  /** After n files, `sample_freq` is the frame rate of the last file among
      them that opened, and unset when none did; a collected signal implies it
      is set. */
  lemma SampleFreqSet(files: seq<string>, mode: string, fs: map<string, StoredFile>, n: nat)
    requires n <= |files|
    ensures BatchOf(files, mode, fs, n).sampleFreq.None? <==> forall j :: 0 <= j < n ==> !Opens(files[j], fs)
    ensures forall k :: LastOpened(files, fs, n, k) ==>
              BatchOf(files, mode, fs, n).sampleFreq == Some(fs[files[k]].wav.rate)
    ensures BatchOf(files, mode, fs, n).sampleFreq.Some? ==>
              exists k :: LastOpened(files, fs, n, k)
                          && BatchOf(files, mode, fs, n).sampleFreq.value == fs[files[k]].wav.rate
    ensures BatchOf(files, mode, fs, n).signals != [] ==> BatchOf(files, mode, fs, n).sampleFreq.Some?
  {
    SampleFreqUnset(files, mode, fs, n);
    SignalsNeedRate(files, mode, fs, n);
    forall k | LastOpened(files, fs, n, k)
      ensures BatchOf(files, mode, fs, n).sampleFreq == Some(fs[files[k]].wav.rate)
    {
      SampleFreqOfLast(files, mode, fs, n, k);
    }
    if BatchOf(files, mode, fs, n).sampleFreq.Some? {
      var k := LastOpenedExists(files, fs, n);
      SampleFreqOfLast(files, mode, fs, n, k);
    }
  }

  /** When some file among the first n opened, one of them opened last. */
  lemma {:induction false} LastOpenedExists(files: seq<string>, fs: map<string, StoredFile>, n: nat) returns (k: int)
    requires n <= |files|
    requires exists j :: 0 <= j < n && Opens(files[j], fs)
    ensures LastOpened(files, fs, n, k)
  {
    if Opens(files[n - 1], fs) {
      k := n - 1;
    } else {
      k := LastOpenedExists(files, fs, n - 1);
    }
  }

  /** A file that does not open adds no signal. */
  lemma SignalsNeedOpen(files: seq<string>, mode: string, fs: map<string, StoredFile>, n: nat)
    requires 0 < n <= |files| && !Opens(files[n - 1], fs)
    ensures BatchOf(files, mode, fs, n).signals == BatchOf(files, mode, fs, n - 1).signals
  {
    var o := ProcessFile(n - 1, files[n - 1], mode, fs);
    assert BatchOf(files, mode, fs, n) == AddOutcome(BatchOf(files, mode, fs, n - 1), o);
  }

  /** The call fails exactly when more than one signal got through and the
      last file whose header was read, whether or not it was itself skipped,
      has a zero frame rate: the composite's time axis divides by it. */
  lemma CrashNeedsZeroRate(files: seq<string>, mode: string, fs: map<string, StoredFile>)
    ensures PlotOutcome(files, mode, fs).Crashed? <==>
              |Signals(files, mode, fs)| > 1
              && exists k :: LastOpened(files, fs, |files|, k) && fs[files[k]].wav.rate == 0
  {
    BatchSignals(files, mode, fs, |files|);
    assert files[..|files|] == files;
    SampleFreqSet(files, mode, fs, |files|);
  }

  /** With at most one signal there is no composite, and the figure holds
      only the traces the files drew: no dashed trace at all. */
  lemma {:induction false} NoCompositeTraceAlone(files: seq<string>, mode: string, fs: map<string, StoredFile>)
    requires |Signals(files, mode, fs)| <= 1
    ensures var p := PlotOutcome(files, mode, fs);
            p.Shown? && p.composite.None?
            && p.traces == BatchOf(files, mode, fs, |files|).traces
            && forall t :: t in p.traces ==> !t.dashed
  {
    BatchSignals(files, mode, fs, |files|);
    assert files[..|files|] == files;
  }

  /** Every signal that got through in a spectrum mode is non-empty, so the
      composite drawn there never has zero samples (numpy's transform refuses
      an empty input, and nothing would catch it there). */
  lemma {:induction false} SpectrumSignalsNonEmpty(files: seq<string>, mode: string, fs: map<string, StoredFile>)
    requires ShowsSpectrum(mode)
    ensures forall j :: 0 <= j < |Signals(files, mode, fs)| ==> |Signals(files, mode, fs)[j]| > 0
  {
    if files != [] {
      SpectrumSignalsNonEmpty(files[1..], mode, fs);
    }
  }

  /** In a spectrum mode the composite, when drawn, has at least one sample. */
  lemma CompositeSpectrumNonEmpty(files: seq<string>, mode: string, fs: map<string, StoredFile>)
    requires ShowsSpectrum(mode)
    requires PlotOutcome(files, mode, fs).Shown? && PlotOutcome(files, mode, fs).composite.Some?
    ensures |PlotOutcome(files, mode, fs).composite.value| > 0
  {
    PlotShowsSignals(files, mode, fs);
    SpectrumSignalsNonEmpty(files, mode, fs);
  }

  /** A request with a missing file and one good take, in oscilloscope mode,
      draws exactly that take's waveform and no composite. */
  lemma OneMissingOnePresent(missing: string, present: string, fs: map<string, StoredFile>)
    requires missing !in fs
    requires LoadedSignal(present, "Oscilloscope", fs).Some?
    ensures var p := PlotOutcome([missing, present], "Oscilloscope", fs);
            p.Shown? && p.composite.None? && |p.traces| == 1
            && p.traces[0].legend == present && p.signals == [LoadedSignal(present, "Oscilloscope", fs).value]
            && p.traces[0].colour == Colors[1] && p.traces[0].alpha == AlphaValues[1]
  {
    var files := [missing, present];
    var o0 := ProcessFile(0, missing, "Oscilloscope", fs);
    assert o0 == FileOutcome(None, [], None);
    assert BatchOf(files, "Oscilloscope", fs, 1) == AddOutcome(Batch([], [], None), o0);
    assert BatchOf(files, "Oscilloscope", fs, 1) == Batch([], [], None);
    var o := ProcessFile(1, present, "Oscilloscope", fs);
    assert |o.traces| == 1;
  }
}

=== FILE: recorder.dfy ===
/** `VoiceRecorder`'s capture side: a class whose fields are the source's
    fields, one method per operation, and the capture thread's loop taken one
    iteration at a time. Each method is proved to move the fields exactly as
    the matching `Lifecycle` transition says, and to write exactly the file
    `Lifecycle.SaveOutput` describes. */
module Recorder {

  import opened Pcm
  import opened Wav
  import opened Lifecycle

  class VoiceRecorder {
    const config: Config
    var currentlyRecording: bool
    var filename: string
    var frames: seq<seq<Byte>>
    var stream: Stream

    /** The recorder's fields as a value. */
    function State(): RecorderState
      reads this
    {
      RecorderState(currentlyRecording, filename, frames, stream)
    }

    /** A recorder with the given fixed configuration, idle, with no take named.
        Only configurations the `wave` writer accepts are admitted. */
    constructor (framesPerBuffer: nat := 3200, format: SampleFormat := PaInt16,
                 channels: nat := 1, rate: nat := 16000)
      requires channels >= 1 && rate >= 1
      ensures config == Config(framesPerBuffer, format, channels, rate)
      ensures State() == Initial
    {
      config := Config(framesPerBuffer, format, channels, rate);
      currentlyRecording := false;
      filename := "";
      frames := [];
      stream := NoStream;
    }

    /** Stop the take being recorded (saving it), or start one named `filename`. */
    method Toggle(filename: string, disk: FileStore)
      modifies this, disk
      ensures State() == AfterToggle(old(State()), filename)
      ensures disk.files == if old(currentlyRecording)
                            then Write(old(disk.files), SaveOutput(config, State()))
                            else old(disk.files)
    {
      if currentlyRecording {
        Stop(disk);
      } else {
        Start(filename);
      }
    }

    /** Name the take, drop any earlier buffer and raise the recording flag. */
    method Start(filename: string)
      modifies this
      ensures State() == AfterStart(old(State()), filename)
      ensures frames == [] && currentlyRecording
    {
      this.filename := filename;
      frames := [];
      currentlyRecording := true;
    }

    /** The capture thread opening the input stream before its loop. */
    method OpenStream()
      modifies this
      ensures State() == AfterOpen(old(State()))
    {
      stream := Open;
    }

    /** One turn of the capture loop: if the flag is still up, the chunk just
        read is appended; `appended` tells whether the loop went on. */
    method CaptureStep(chunk: seq<Byte>) returns (appended: bool)
      modifies this
      ensures appended == old(currentlyRecording)
      ensures State() == AfterCapture(old(State()), chunk)
      ensures appended ==> frames == old(frames) + [chunk]
      ensures !appended ==> frames == old(frames)
    {
      appended := currentlyRecording;
      if appended {
        frames := frames + [chunk];
      }
    }

    /** The capture loop has seen the lowered flag and saves the take. */
    method FinishCapture(disk: FileStore)
      requires !currentlyRecording
      modifies disk
      ensures disk.files == Write(old(disk.files), SaveOutput(config, State()))
    {
      Save(disk);
    }

    /** Lower the flag, stop and close the stream if it is open, and save. A
        stream that an earlier stop closed is passed over: PyAudio's
        `stop_stream` does nothing on a stream that is not running. */
    method Stop(disk: FileStore)
      modifies this, disk
      ensures State() == AfterStop(old(State()))
      ensures disk.files == Write(old(disk.files), SaveOutput(config, State()))
    {
      currentlyRecording := false;
      if stream == Open {
        stream := Closed;
      }
      Save(disk);
    }

    /** Write the take, when one is named: the configured header over the
        chunks joined in capture order. */
    method Save(disk: FileStore)
      modifies disk
      ensures disk.files == Write(old(disk.files), SaveOutput(config, State()))
    {
      if filename == "" {
        return;
      }
      disk.files := disk.files[filename := Wav(TakeFile(config, frames))];
    }
  }

  /** One take driven as the application drives it: the button starts it, the
      capture thread opens its stream and reads `chunks`, the button stops it
      (which saves), and the thread's loop then ends and saves once more. The
      second save rewrites the same file, so the take on disk is the chunks
      joined in read order under the default header. */
  method RecordSession(disk: FileStore, filename: string, chunks: seq<seq<Byte>>)
    returns (r: VoiceRecorder)
    requires filename != ""
    modifies disk
    ensures fresh(r) && !r.currentlyRecording && r.frames == chunks
    ensures disk.files == old(disk.files)[filename := Wav(TakeFile(DefaultConfig, chunks))]
  {
    r := new VoiceRecorder();
    r.Toggle(filename, disk);
    r.OpenStream();
    var i := 0;
    while i < |chunks|
      invariant 0 <= i <= |chunks|
      invariant r.config == DefaultConfig
      invariant r.State() == RecorderState(true, filename, chunks[..i], Open)
      invariant disk.files == old(disk.files)
    {
      var _ := r.CaptureStep(chunks[i]);
      assert chunks[..i + 1] == chunks[..i] + [chunks[i]];
      i := i + 1;
    }
    assert chunks[..i] == chunks;
    r.Toggle(filename, disk);
    r.FinishCapture(disk);
  }

  /** Stopping a recorder that was never started writes no file. */
  method StopWithoutStart(disk: FileStore) returns (r: VoiceRecorder)
    modifies disk
    ensures fresh(r) && !r.currentlyRecording && r.frames == []
    ensures disk.files == old(disk.files)
  {
    r := new VoiceRecorder();
    r.Stop(disk);
  }
}

=== FILE: wav.dfy ===
/** WAV files as the recorder writes them and the analyzer reads them, kept
    at the level of the header fields and the data bytes (the RIFF byte layout
    belongs to Python's `wave` module and is not modelled), and the directory
    they live in. */
module Wav {

  import opened Wrappers
  import opened Pcm

  /** PyAudio's sample formats. */
  datatype SampleFormat = PaFloat32 | PaInt32 | PaInt24 | PaInt16 | PaInt8 | PaUInt8

  /** `PyAudio.get_sample_size`: bytes per sample of a format. */
  function SampleSize(format: SampleFormat): (n: nat)
    ensures 1 <= n <= 4
    ensures format == PaInt16 ==> n == 2
  {
    match format
    case PaFloat32 => 4
    case PaInt32 => 4
    case PaInt24 => 3
    case PaInt16 => 2
    case PaInt8 => 1
    case PaUInt8 => 1
  }

  /** The header fields (`nchannels`, `sampwidth`, `framerate`) and the data chunk. */
  datatype WavFile = WavFile(channels: nat, sampleWidth: nat, rate: nat, data: seq<Byte>)

  /** What a path holds: a WAV file the `wave` module can parse, or anything else. */
  datatype StoredFile = Wav(wav: WavFile) | Unreadable

  /** The file system the recorder writes to and the analyzer reads from. */
  class FileStore {
    var files: map<string, StoredFile>

    constructor (files: map<string, StoredFile>)
      ensures this.files == files
    {
      this.files := files;
    }
  }

  /** Bytes in one frame: one sample for every channel. */
  function FrameSize(w: WavFile): nat
  {
    w.channels * w.sampleWidth
  }

  /** `wave.open(path, "rb")`: fails on anything but a parsable header, and on a
      header with no channels or a zero sample width. */
  function OpenWav(f: StoredFile): (r: Option<WavFile>)
    ensures r.Some? ==> f == Wav(r.value) && FrameSize(r.value) > 0
    ensures f.Wav? && f.wav.channels > 0 && f.wav.sampleWidth > 0 ==> r == Some(f.wav)
  {
    match f
    case Unreadable => None
    case Wav(w) => if w.channels == 0 || w.sampleWidth == 0 then None else Some(w)
  }

  /** `getnframes()`: the number of whole frames the data chunk holds. */
  function NFrames(w: WavFile): (n: nat)
    requires FrameSize(w) > 0
    ensures n * FrameSize(w) <= |w.data| < (n + 1) * FrameSize(w)
  {
    |w.data| / FrameSize(w)
  }

  /** The 16-bit samples the analyzer reads from a file it could open:
      `readframes(-1)` reads to the end of the data chunk, so the whole data
      comes back, a trailing partial frame included, and `np.frombuffer`
      turns it into samples. */
  function ReadSignal(w: WavFile): (r: Option<seq<int>>)
    requires FrameSize(w) > 0
    ensures r.Some? <==> |w.data| % 2 == 0
    ensures r.Some? ==> 2 * |r.value| == |w.data|
                        && forall k :: 0 <= k < |r.value| ==> r.value[k] == DecodeSample(w.data[2 * k], w.data[2 * k + 1])
  {
    DecodeSamples(w.data)
  }

  /** The file system after a save: unchanged when nothing was written, else
      the path maps to the new file, replacing what it held. */
  function Write(files: map<string, StoredFile>, out: Option<(string, WavFile)>): (r: map<string, StoredFile>)
    ensures out.None? ==> r == files
    ensures out.Some? ==> r.Keys == files.Keys + {out.value.0} && r[out.value.0] == Wav(out.value.1)
    ensures forall p :: p in files && (out.None? || p != out.value.0) ==> p in r && r[p] == files[p]
  {
    match out
    case None => files
    case Some((path, w)) => files[path := Wav(w)]
  }
}

=== FILE: wrappers.dfy ===
/** The optional value the model uses wherever the recorder or the analyzer
    may come back without a result (no filename set, a file that is skipped). */
module Wrappers {

  datatype Option<+T> = None | Some(value: T)

}
